=== FILE: README.md ===
# adzip archive creation, modelled in Dafny

`adzip` packs a directory tree into one `.ad` file. The file holds:

- a 12-byte `Header` (signature, entry count, metadata offset);
- the content bytes of regular files;
- a table of fixed-size `Metadata` records (name, `d_type`, path, owner,
  group, mode, size, content offset).

This project models the creation side of the C program as written:

- `store_directory`: the recursive walk, its two offset counters and the
  records it fills in;
- in `main`: the placeholder header, finalising the header, and choosing
  the parent directory for an input that is not a directory;
- in `print_hierarchy`: the signature gate and its top-level record loop.

The filesystem is an abstract tree (`FsTree.Node`). Each node carries:

- what `readdir` reports: name and `d_type`;
- what `stat` reports, or `None` when `stat` fails;
- a file's bytes, or `None` when `fopen` fails;
- whether `opendir` succeeds, and the children in `readdir` order.

The walk (`Store`) is a pure fold. It returns the positioned writes it issues
(`Layout.Write`) and the final `metadata_offset` and `data_offset`. The
archive file is the log of those writes. A reader (`Image`) sees, at every
byte, the last write that covered it.

Modules, leaves first:

- `Layout`: constants, `Header`, `Metadata`, writes.
- `Paths`: `snprintf`/`strncpy`/`strrchr` on paths.
- `FsTree`: the tree, plus a census of its records and content bytes.
- `Store`: the walk.
- `Accounting`: the walk checked against the census.
- `PostOrder`: the order of the table.
- `Image`: what a reader finds in the file.
- `Listing`: `print_hierarchy`.
- `Create`: the `-c` branch of `main`.
- `Separated`: the intended layout next to the one as written.

The model follows the code where it departs from its own comments and from
what a reader of the format would expect:

- The `Header` comment calls `metadata_offset` the "Offset to the metadata
  section" (adzip.c:18). The value stored is the counter's final value
  (adzip.c:201): the end of the table, not its start.
- The `Metadata` comment gives the size as "0 for directories" (adzip.c:29).
  Only regular files assign the field (adzip.c:117); a directory's size is
  never assigned, and `Metadata.size` is `None` for it.
- The comment at adzip.c:185 promises to "wrap it in a single-entry
  directory" for a plain-file input. The code archives the file's whole
  parent directory, sibling files included.
- Both counters start at `sizeof(Header)` (adzip.c:171-172), so content and
  records are written over each other.
- A directory's record is written after the records of its subtree
  (adzip.c:114, then 139-141), so the table is in post-order.

## Model

| member | source | states |
|---|---|---|
| Layout.U32 | adzip.c:200-201 | storing a count in a `uint32_t` field keeps it modulo 2^32: the result is below 2^32, differs from the input by a multiple of 2^32, and equals the input when the input fits |
| Layout.SlotsAdd | adzip.c:142 | `n` records followed by `k` more take the space of `n + k` records |
| Layout.SlotsProduct | adzip.c:142 | `n` records, each advancing the counter by `sizeof(Metadata)`, take `n * sizeof(Metadata)` bytes |
| Paths.EntryPath | adzip.c:92-93 | the entry path is `dir_path + "/" + name` cut to exactly 255 characters when longer, so it fits the buffer with its terminator: always a prefix of the joined string, equal to it when it fits, and still starting with `dir_path + "/"` when `dir_path` fits |
| Paths.CopyField | adzip.c:104-105 | a `name` or `path` field holds exactly the first 256 characters of a longer source, and the whole source when it fits |
| Paths.LastIndexOf | adzip.c:188 | `strrchr` finds '/' exactly when the string holds one, and the position it returns holds '/' with no '/' after it |
| Paths.ParentDir | adzip.c:186-193 | the archived directory for a file input is "." when the input has no '/', and otherwise the part of the input before its last '/' |
| Paths.Strncpy | adzip.c:187 | `strncpy` into an `n`-character array terminates it exactly when the source is shorter than `n`; otherwise the array holds the source's first `n` characters and no terminator |
| Paths.ParentDirAsWritten | adzip.c:186-193 | the parent computation as written is defined exactly for inputs shorter than 256 characters |
| Paths.ParentDirAgrees | adzip.c:186-193 | on every input shorter than 256 characters, the code as written computes `ParentDir` |
| Paths.ParentDirUnterminated | adzip.c:186-188 | a 256-character input ("d/" then 254 characters) leaves `parent_dir` unterminated, although its parent is "d" |
| Store.EntryRecord | adzip.c:103-111 | a record carries the entry's name (cut to exactly 256 characters, and whole when it fits) and joined path (cut to exactly 255 characters, and whole when it fits), the raw `d_type`, the `stat` owner, group and mode, and the `data_offset` on entry; its size is the file size modulo 2^32 for a regular file and unassigned otherwise |
| Store.StoreDirectory | adzip.c:75-81 | a directory that does not open writes nothing and leaves both counters as they were; otherwise it is the fold over its entries, and neither counter ever decreases |
| Store.StoreEntries | adzip.c:83-85 | the `readdir` loop threads both counters from one entry to the next, and neither ever decreases |
| Store.StoreEntry | adzip.c:87-142 | ".", "..", failed `stat`, types other than `DT_DIR`/`DT_REG` and failed `fopen` write nothing and leave both counters unchanged; a recorded entry's last write is its record, at the slot just below the final metadata counter, with `content_offset` equal to the `data_offset` on entry; a file advances `metadata_offset` by exactly one record and `data_offset` by exactly its byte count, and its first write is its bytes at that `data_offset`; a directory adds no content bytes beyond its subtree's |
| Store.EntryLaid | adzip.c:110-142 | every entry's walk lays records in consecutive record-sized slots from `metadata_offset`, and content in contiguous chunks from `data_offset` |
| Store.DirLaid | adzip.c:75-147 | the slot and chunk layout of `EntryLaid` holds for a whole directory walk |
| Store.EntriesLaid | adzip.c:83-143 | the slot and chunk layout of `EntryLaid` holds across the `readdir` loop |
| Store.LaidAppend | adzip.c:83-143 | two walks run one after the other, each from the counters the previous one left, keep the slot and chunk layout together |
| Store.SlotsAppend | adzip.c:139-142 | the record slots of two consecutive walks continue one another, and the final counter covers all their records |
| Store.EntryRecords | adzip.c:113-142 | the records an entry accounts for: none when skipped, its own for a file, and its subtree's followed by its own for a directory |
| Accounting.EntryAccounting | adzip.c:113-142 | an entry's walk writes exactly as many records as the tree census counts for it, and moves `data_offset` by exactly the census' content bytes |
| Accounting.DirAccounting | adzip.c:75-147 | a directory walk writes exactly the census' number of records and moves `data_offset` by exactly the census' content bytes |
| Accounting.EntriesAccounting | adzip.c:83-143 | the census equalities of `DirAccounting` hold across the `readdir` loop |
| PostOrder.EntryPostOrder | adzip.c:113-114 | on a tree whose paths fit their buffers, no record after a directory's record lies inside that directory, and every record of an entry lies at or below its path |
| PostOrder.DirPostOrder | adzip.c:139-141 | on such a tree, a directory walk's table is in post-order, and all of its records lie strictly inside the directory |
| PostOrder.EntriesPostOrder | adzip.c:83-143 | on such a tree, the post-order and containment of `DirPostOrder` hold across siblings |
| Image.RecordReadsBack | adzip.c:46 | a record that no later write overlaps is read back intact from its slot |
| Image.HeaderAt | adzip.c:35 | the reader finds a header at offset 0 only if some write put that header there, and always when the last write was a header |
| Image.RecordAt | adzip.c:46 | the reader finds a record at `pos` only if some write put that record at `pos`, and never in a slot no write touched |
| Image.HeaderWrittenLast | adzip.c:202-203 | the header written last is what a reader finds at offset 0 |
| Listing.PrintHierarchy | adzip.c:33-40 | the reader lists nothing unless it finds a header; it rejects exactly the headers whose signature is not `0xADADADAD`; otherwise it lists at most `num_entries` names, and exactly that many when it finishes |
| Listing.ListRecords | adzip.c:44-56 | the depth-0 loop lists at most `count` names, and exactly `count` when it completes; it stops early at a directory record or a slot the walk did not write a record to |
| Listing.TableListing | adzip.c:44-56 | reference: an intact table is listed completely exactly when it holds no directory record, and then the names are the records' names in order |
| Listing.ListsIntactTable | adzip.c:42-56 | when every slot from `metadata_offset` reads back its record, the reader's loop lists what the reference says |
| Create.CreateArchive | adzip.c:159-205 | no archive when `fopen` fails; only the zeroed placeholder when `stat` fails; an undefined outcome, with no archive contents stated, exactly when a non-directory input has 256 characters or more; otherwise the walked directory is the input, or its parent for a non-directory, and the file receives the placeholder, then the walk, then the final header |
| Create.CreatedHeader | adzip.c:167-203 | the walk starts both counters at 12 and no walk write touches the header's bytes, so a reader finds the final header, with signature `0xADADADAD`; while the counter fits the program's `int` (below 2^31), `metadata_offset` is the final counter and `num_entries` is both the number of records written and the census' count |
| Create.HeaderOutsideWalk | adzip.c:167-172 | no write of a walk started at 12 touches the header's bytes, so the final header is what offset 0 holds |
| Create.FinalHeaderCounts | adzip.c:199-201 | when the counter has moved by `n` records and is below 2^31, the header's count is exactly `n` and its offset is the counter |
| Create.FinalHeader | adzip.c:199-201 | the final header always carries the signature `0xADADADAD`, both fields are truncated to 32 bits, and `metadata_offset` is the counter whenever the counter fits them |
| Create.CountFromCounter | adzip.c:171-200 | the entry-count division is exact: the space of `n` records divided by the record size gives back `n` |
| Create.ArchivedDirAsWritten | adzip.c:182-195 | `main` walks the input itself when it is a directory; for any other input it walks the input's parent, and that parent is undefined exactly when the input has 256 characters or more |
| Create.ArchivesParentOfFile | adzip.c:182-196 | a non-directory input of 256 characters or more has no defined parent; a shorter one archives "." when it has no '/', and otherwise a directory that the input extends by '/' and a last component without '/' |
| Create.CreatedPassesGate | adzip.c:37-40 | every created archive passes the reader's signature gate |
| Create.PlaceholderRejected | adzip.c:167-180 | an archive left with only the placeholder, after `stat` fails, is rejected by the gate |
| Separated.CreateSeparated | adzip.c:159-205 | corrected creation: the outcomes and write order of `CreateArchive`, with the table placed after the content region and the parent computed on the whole input, so no outcome is undefined |
| Separated.WalkDisjoint | adzip.c:125-142 | when content ends before the table begins, no write of a walk overlaps a later one |
| Separated.SeparatedSurvives | adzip.c:167-203 | in the corrected layout, every write except the replaced placeholder survives to the final file |
| Separated.TableReadsBack | adzip.c:42-46 | when every write survives, each record of the table reads back from its slot |
| Separated.SlottedIntact | adzip.c:42-46 | records in consecutive slots, each of which reads back, form a table the reader reads intact from its first slot |
| Separated.SeparatedListing | adzip.c:33-56 | in the corrected layout, while the header fields fit 32 bits, the reader lists exactly what the written table calls for |
| Separated.SeparatedCounts | adzip.c:199-201 | the corrected header's fields are the table's start and the number of records |
| Separated.ContentOverwritten | adzip.c:110-142 | as written, a directory holding one one-byte file gets that file's record written over its byte |
| Separated.TableMissed | adzip.c:200-201 | as written, the same directory's header counts one record but points past it, so the reader reads no record the walk wrote |
| Separated.SeparatedOneFile | adzip.c:33-56 | corrected, the same directory reads back as the one file "a", completely |

## Left out

- I/O is not modelled. `fopen`, `fread`, `fwrite`, `fseek`, `opendir`, `readdir`, `stat` and `closedir` become fields of the abstract tree and a log of positioned writes. Short writes, write errors and `fclose` are not modelled.
- The recursive call in `print_hierarchy` at a directory record is left out (adzip.c:54-55). Each call re-reads a `Header` from the middle of the metadata table, so it has no coherent behaviour to state. `ListRecords` stops there and reports the listing as incomplete.
- Listing.ListRecords: the loop at adzip.c:44-52 never checks `fread` and prints `num_entries` names whatever it reads: file content read as a record, or an uninitialised struct at end of file. The model's reader cannot say what those bytes hold as names, so it stops at the first slot not holding a record written there and reports the listing as incomplete.
- Indentation and the other console output are left out.
- `display_hierarchy` is left out.
- Argument parsing, usage and error messages are left out (adzip.c:150-157, 207-212).
- Binary layout of `Header` and `Metadata` is not modelled. The record size is an abstract constant, assumed only to be positive and below 64 KiB, because padding and the widths of `uid_t`, `gid_t` and `mode_t` depend on the platform. The header is taken as 12 bytes.
- Store.StoreEntry: the offset counters are unbounded. In the source they are `int`; `*metadata_offset += sizeof(Metadata)` (adzip.c:142) and `*data_offset += bytes_read` (adzip.c:131) add in `size_t`, and converting a sum above `INT_MAX` back to `int` is implementation-defined (it wraps on common compilers). That wrap past 2 GiB is not modelled.
- Store.StoreEntry: `stat` and `fopen` on a truncated path are not modelled separately. The model does not connect them to the path the record stores; each node's `stat` and content stand for what those calls return.
- Store.StoreEntry: the archive file is assumed not to lie inside the walked directory. When it does (a non-directory input without '/' walks ".", and `adzip -c d/x.ad d` walks "d"), `readdir` may list the archive itself, and the copy loop at adzip.c:118-132 then reads the file it is writing to. A node's `content` is a fixed, finite sequence and cannot express that.
- Store.EntryRecord: names are not assumed to be free of NUL characters. Neither is `d_name` limited to 255 characters as on Linux. The field is only bounded by 256 characters.
- Paths.EntryPath: each `char` of a Dafny string stands for one byte of the C string. The limits of `snprintf` (adzip.c:93) and `strncpy` (adzip.c:104-105, 187) count bytes, so they match this model only for names and paths whose characters are single bytes. A name in a multi-byte encoding is cut later here than in the program, and `ParentDirAsWritten` treats such an input as terminated sooner than the program does.
- Store.EntryRecord: the unassigned `size` of a directory record is `None`. The model does not say which stack bytes it holds.
- PostOrder.DirPostOrder: post-order is proved only for trees whose every path fits its buffer and whose sibling names are non-empty, distinct and free of '/'. Truncated paths can collide, and then the string comparison says nothing.
- Create.CreateArchive: for a non-directory input of 256 characters or more, `strrchr` reads past `parent_dir` (adzip.c:188). The program usually goes on to walk some directory and sign the archive, but the result depends on memory the model cannot see. The `Undefined` outcome therefore states nothing about the file.
- Create.CreatedHeader: the header's fields are stated equal to the counter and the record count only while the counter is below 2^31. The program's counter is an `int`, and beyond `INT_MAX` it wraps negative; adzip.c:200 then converts the negative difference to `size_t` before dividing, so the program's `num_entries` and `metadata_offset` differ from the model's `FinalHeader` there. That range follows from the unbounded counters noted under `Store.StoreEntry`.
- Reading files back from an archive (extraction) is not part of this program's code, so it is not modelled.

## Findings

| source | as written | input that shows it | evidently intended | confidence | as-written member | corrected member |
|---|---|---|---|---|---|---|
| adzip.c:171-172 | `metadata_offset` and `data_offset` both start at `sizeof(Header)`, so records and file content are written over one another | directory "d" holding one file "a" whose content is the byte 0x61 | content in `[12, 12 + total bytes)`, then the table right after it, with nothing overwritten | high (proved on the model; not executed) | Separated.ContentOverwritten | Separated.SeparatedSurvives |
| adzip.c:201 | `header.metadata_offset = metadata_offset` stores the counter's final value, which is the end of the table | the same directory: the header points at 12 + one record size, past the last record, so the reader reads no record the walk wrote | the header points at the start of the table, and the reader lists the records written | high (proved on the model; not executed) | Separated.TableMissed | Separated.SeparatedListing |
| adzip.c:187-188 | `strncpy(parent_dir, input_path, 256)` writes no terminator when the input is 256 characters or longer, and `strrchr` then reads past the array | "d/" followed by 254 characters | parent "d", or a refusal of over-long paths | medium (undefined behaviour, outcome platform-dependent; not executed) | Paths.ParentDirUnterminated | Paths.ParentDir (used by Separated.CreateSeparated) |

The corrected layout is `Separated.CreateSeparated`:

- A planning pass (`FsTree.DirBytes`) sizes the content region first.
- The walk then starts `data_offset` at 12 and `metadata_offset` right after the content.
- The header stores the table's start and the number of records.

`Separated.SeparatedOneFile` shows the one-file example from the first two
rows listed correctly in this layout.

=== FILE: accounting.dfy ===
/**
  The walk against an independent census of the tree: the number of records
  it writes is the number of recorded entries (`FsTree.EntryCount`), and the
  distance `data_offset` travels is the census' content total
  (`FsTree.EntryBytes`).
*/
module Accounting {
  import opened Layout
  import opened Paths
  import opened FsTree
  import opened Store

  lemma {:induction false} EntryAccounting(dirPath: string, e: Node, m: nat, d: nat)
    ensures |Records(StoreEntry(dirPath, e, m, d).log)| == EntryCount(e)
    ensures StoreEntry(dirPath, e, m, d).dataOff == d + EntryBytes(e)
    decreases e
  {
    EntryRecords(dirPath, e, m, d);
    if Recorded(e) && e.dtype == DT_DIR {
      DirAccounting(EntryPath(dirPath, e.name), e.opens, e.children, m, d);
    }
  }

  lemma {:induction false} DirAccounting(dirPath: string, opens: bool, kids: seq<Node>, m: nat, d: nat)
    ensures |Records(StoreDirectory(dirPath, opens, kids, m, d).log)| == DirCount(opens, kids)
    ensures StoreDirectory(dirPath, opens, kids, m, d).dataOff == d + DirBytes(opens, kids)
    decreases kids, 1
  {
    if opens {
      EntriesAccounting(dirPath, kids, m, d);
    }
  }

  lemma {:induction false} EntriesAccounting(dirPath: string, kids: seq<Node>, m: nat, d: nat)
    ensures |Records(StoreEntries(dirPath, kids, m, d).log)| == KidsCount(kids)
    ensures StoreEntries(dirPath, kids, m, d).dataOff == d + KidsBytes(kids)
    decreases kids, 0
  {
    if kids != [] {
      var first := StoreEntry(dirPath, kids[0], m, d);
      EntriesRecords(dirPath, kids, m, d);
      EntryAccounting(dirPath, kids[0], m, d);
      EntriesAccounting(dirPath, kids[1..], first.metaOff, first.dataOff);
    }
  }
}

=== FILE: create.dfy ===
/**
  The `-c` branch of `main`: open the archive, write a zeroed placeholder
  header, `stat` the input, walk either the input directory or the directory
  the input file sits in, and finally overwrite the header at offset 0 with
  the signature, the entry count and the metadata counter.
*/
module Create {
  import opened Layout
  import opened Paths
  import opened FsTree
  import opened Store
  import opened Accounting
  import opened Image
  import opened Listing

  datatype Outcome =
    /** `fopen(archive_path, "wb")` fails: no archive. */
    | OpenFailed
    /** `stat(input_path)` fails: the archive holds the placeholder header only. */
    | StatFailed(log: seq<Write>)
    /**
      A non-directory input of `MAX_PATH_LEN` characters or more: `parent_dir`
      is left unterminated and `strrchr` reads past it. The placeholder header
      has been written; what the program does after that is undefined, so no
      archive contents are stated.
    */
    | Undefined
    /** The archive was written: the directory walked, the walk, the final header and every write. */
    | Created(dir: string, walk: Walk, header: Header, log: seq<Write>)

  /**
    The directory handed to `store_directory` for an input with the given
    `stat` result, as `main` computes it; `None` where that computation is
    undefined.
  */
  function ArchivedDirAsWritten(inputPath: string, st: StatInfo): (r: Option<string>)
    ensures r.None? <==> !IsDirMode(st.mode) && |inputPath| >= MAX_PATH_LEN
    ensures IsDirMode(st.mode) ==> r == Some(inputPath)
    ensures !IsDirMode(st.mode) && r.Some? ==> r.value == ParentDir(inputPath)
  {
    if IsDirMode(st.mode) then Some(inputPath) else ParentDirAsWritten(inputPath)
  }

  /** The same choice with the parent computed on the whole input, whatever its length. */
  function ArchivedDir(inputPath: string, st: StatInfo): string {
    if IsDirMode(st.mode) then inputPath else ParentDir(inputPath)
  }

  /** The header written last: signature, entry count from the metadata counter, the counter itself. */
  function FinalHeader(metaOff: nat): (h: Header)
    requires metaOff >= HEADER_SIZE
    ensures h.signature == HEADER_SIGNATURE
    ensures h.numEntries < U32_LIMIT && h.metadataOffset < U32_LIMIT
    ensures metaOff < U32_LIMIT ==> h.metadataOffset == metaOff
  {
    Header(HEADER_SIGNATURE, U32((metaOff - HEADER_SIZE) / RECORD_SIZE), U32(metaOff))
  }

  /**
    Archive creation. `inputStat` is what `stat(input_path)` reports; `opens`
    and `listing` are what `opendir`/`readdir` report for the directory named
    by `ArchivedDir`.
  */
  function CreateArchive(
    inputPath: string, archiveOpens: bool, inputStat: Option<StatInfo>,
    opens: bool, listing: seq<Node>): (out: Outcome)
    ensures !archiveOpens <==> out.OpenFailed?
    ensures archiveOpens && inputStat.None? <==> out.StatFailed?
    ensures out.StatFailed? ==> out.log == [PutHeader(ZERO_HEADER)]
    ensures out.Undefined? <==>
      archiveOpens && inputStat.Some? && !IsDirMode(inputStat.value.mode) && |inputPath| >= MAX_PATH_LEN
    ensures out.Created? ==>
      && Some(out.dir) == ArchivedDirAsWritten(inputPath, inputStat.value)
      && out.dir == ArchivedDir(inputPath, inputStat.value)
      && out.log == [PutHeader(ZERO_HEADER)] + out.walk.log + [PutHeader(out.header)]
  {
    if !archiveOpens then OpenFailed
    else match inputStat
      case None => StatFailed([PutHeader(ZERO_HEADER)])
      case Some(st) =>
        match ArchivedDirAsWritten(inputPath, st)
        case None => Undefined
        case Some(dir) =>
          var walk := StoreDirectory(dir, opens, listing, HEADER_SIZE, HEADER_SIZE);
          var header := FinalHeader(walk.metaOff);
          Created(dir, walk, header, [PutHeader(ZERO_HEADER)] + walk.log + [PutHeader(header)])
  }

  /** Dividing the space of `n` records by `sizeof(Metadata)` gives back exactly `n`, which is no larger. */
  lemma CountFromCounter(n: nat)
    ensures Slots(n) / RECORD_SIZE == n
    ensures n <= Slots(n)
  {
    SlotsProduct(n);
    DivExact(n, RECORD_SIZE);
    ProductBounds(n, RECORD_SIZE);
  }

  lemma DivExact(n: nat, c: nat)
    requires c > 0
    ensures (n * c) / c == n
  {
    var q := (n * c) / c;
    var r := (n * c) % c;
    assert n * c == q * c + r;
    assert (n - q) * c == r;
    ProductBounds(n - q, c);
  }

  lemma ProductBounds(a: int, c: int)
    requires c > 0
    ensures a >= 1 ==> a * c >= c
    ensures a <= -1 ==> a * c <= -c
  {
  }

  /**
    A created archive: the walk starts both counters at `sizeof(Header)`; no
    write of the walk touches the header's bytes, so what a reader finds at
    offset 0 is the final header, which carries the signature and — while the
    counter fits 32 bits — the final metadata counter and the exact number of
    records written, which is the number of recorded entries of the tree.
  */
  lemma CreatedHeader(
    inputPath: string, archiveOpens: bool, inputStat: Option<StatInfo>,
    opens: bool, listing: seq<Node>)
    requires CreateArchive(inputPath, archiveOpens, inputStat, opens, listing).Created?
    ensures var out := CreateArchive(inputPath, archiveOpens, inputStat, opens, listing);
      && out.walk == StoreDirectory(out.dir, opens, listing, HEADER_SIZE, HEADER_SIZE)
      && out.log[0] == PutHeader(ZERO_HEADER)
      && (forall i :: 0 < i < |out.log| - 1 ==> !out.log[i].Touches(0, HEADER_SIZE))
      && HeaderAt(out.log) == Some(out.header)
      && out.header.signature == HEADER_SIGNATURE
      && (out.walk.metaOff < INT_LIMIT ==>
            && out.header.metadataOffset == out.walk.metaOff
            && out.header.numEntries == |Records(out.walk.log)|
            && out.header.numEntries == DirCount(opens, listing))
  {
    var out := CreateArchive(inputPath, archiveOpens, inputStat, opens, listing);
    var walk := out.walk;
    assert walk == StoreDirectory(out.dir, opens, listing, HEADER_SIZE, HEADER_SIZE);
    assert out.header == FinalHeader(walk.metaOff);
    DirLaid(out.dir, opens, listing, HEADER_SIZE, HEADER_SIZE);
    DirAccounting(out.dir, opens, listing, HEADER_SIZE, HEADER_SIZE);
    HeaderOutsideWalk(walk, out.header);
    if walk.metaOff < INT_LIMIT {
      FinalHeaderCounts(walk.metaOff, |Records(walk.log)|);
    }
  }

  /** The walk's writes all lie at or after `sizeof(Header)`, so the header written last is what offset 0 holds. */
  lemma HeaderOutsideWalk(walk: Walk, header: Header)
    requires Laid(walk, HEADER_SIZE, HEADER_SIZE)
    ensures var log := [PutHeader(ZERO_HEADER)] + walk.log + [PutHeader(header)];
      && (forall i :: 0 < i < |log| - 1 ==> !log[i].Touches(0, HEADER_SIZE))
      && HeaderAt(log) == Some(header)
  {
    var log := [PutHeader(ZERO_HEADER)] + walk.log + [PutHeader(header)];
    forall i | 0 < i < |log| - 1
      ensures !log[i].Touches(0, HEADER_SIZE)
    {
      assert log[i] == walk.log[i - 1];
    }
    HeaderWrittenLast(log, header);
  }

  /** With the counter inside 32 bits, the final header's fields are the counter and the record count. */
  lemma FinalHeaderCounts(metaOff: nat, n: nat)
    requires metaOff == HEADER_SIZE + Slots(n)
    requires metaOff < INT_LIMIT
    ensures FinalHeader(metaOff).metadataOffset == metaOff
    ensures FinalHeader(metaOff).numEntries == n
  {
    CountFromCounter(n);
    assert metaOff - HEADER_SIZE == Slots(n);
  }

  /**
    An input that is not a directory archives its parent directory: "." when
    the input has no '/', otherwise the input up to its last '/'. That holds
    for inputs that fit `parent_dir`; a longer one has no defined parent.
  */
  lemma ArchivesParentOfFile(inputPath: string, st: StatInfo)
    requires !IsDirMode(st.mode)
    ensures ArchivedDirAsWritten(inputPath, st).None? <==> |inputPath| >= MAX_PATH_LEN
    ensures |inputPath| < MAX_PATH_LEN && '/' !in inputPath ==> ArchivedDirAsWritten(inputPath, st) == Some(".")
    ensures |inputPath| < MAX_PATH_LEN && '/' in inputPath ==>
      && ArchivedDirAsWritten(inputPath, st).Some?
      && ArchivedDirAsWritten(inputPath, st).value + "/" <= inputPath
      && '/' !in inputPath[|ArchivedDirAsWritten(inputPath, st).value| + 1..]
  {
    if |inputPath| < MAX_PATH_LEN {
      ParentDirAgrees(inputPath);
    }
  }

  /** A created archive passes the reader's signature gate. */
  lemma CreatedPassesGate(
    inputPath: string, archiveOpens: bool, inputStat: Option<StatInfo>,
    opens: bool, listing: seq<Node>)
    requires CreateArchive(inputPath, archiveOpens, inputStat, opens, listing).Created?
    ensures PrintHierarchy(CreateArchive(inputPath, archiveOpens, inputStat, opens, listing).log).Listed?
  {
    CreatedHeader(inputPath, archiveOpens, inputStat, opens, listing);
  }

  /**
    An archive left with only the zeroed placeholder, because `stat` failed,
    is refused by the gate.
  */
  lemma PlaceholderRejected(
    inputPath: string, archiveOpens: bool, inputStat: Option<StatInfo>,
    opens: bool, listing: seq<Node>)
    requires CreateArchive(inputPath, archiveOpens, inputStat, opens, listing).StatFailed?
    ensures PrintHierarchy(CreateArchive(inputPath, archiveOpens, inputStat, opens, listing).log) == Rejected
  {
    HeaderWrittenLast([PutHeader(ZERO_HEADER)], ZERO_HEADER);
  }
}

=== FILE: image.dfy ===
/**
  What a reader finds in the archive file after a sequence of positioned
  writes: at every byte, the last write that covered it. A structure read
  back is intact only when the last write over any of its bytes is the write
  that put it there, at the same offset.
*/
module Image {
  import opened Layout

  /** Index of the last write that touches `[start, start + len)`, if any. */
  function LastTouching(log: seq<Write>, start: nat, len: nat): (r: Option<nat>)
    ensures r.Some? ==>
      && r.value < |log|
      && log[r.value].Touches(start, len)
      && forall j :: r.value < j < |log| ==> !log[j].Touches(start, len)
    ensures r.None? ==> forall j :: 0 <= j < |log| ==> !log[j].Touches(start, len)
  {
    if log == [] then None
    else if log[|log| - 1].Touches(start, len) then Some(|log| - 1)
    else
      var r := LastTouching(log[..|log| - 1], start, len);
      assert forall j :: 0 <= j < |log| - 1 ==> log[..|log| - 1][j] == log[j];
      r
  }

  /** The header `fread` returns at offset 0, when its bytes are those of a header write. */
  function HeaderAt(log: seq<Write>): (r: Option<Header>)
    ensures r.Some? ==> PutHeader(r.value) in log
    ensures 0 < |log| && log[|log| - 1].PutHeader? ==> r == Some(log[|log| - 1].header)
  {
    match LastTouching(log, 0, HEADER_SIZE)
    case None => None
    case Some(i) => if log[i].PutHeader? then Some(log[i].header) else None
  }

  /** The record `fread` returns at `pos`, when its bytes are those of a record written there. */
  function RecordAt(log: seq<Write>, pos: nat): (r: Option<Metadata>)
    ensures r.Some? ==> PutRecord(pos, r.value) in log
    ensures (forall i :: 0 <= i < |log| ==> !log[i].Touches(pos, RECORD_SIZE)) ==> r.None?
  {
    match LastTouching(log, pos, RECORD_SIZE)
    case None => None
    case Some(i) =>
      if log[i].PutRecord? && log[i].at == pos then Some(log[i].meta) else None
  }

  /** No later write overwrites any byte of write `i`. */
  predicate Survives(log: seq<Write>, i: nat)
    requires i < |log|
  {
    forall j :: i < j < |log| ==> !Overlap(log[j], log[i])
  }

  /** A record that survives reads back intact from its slot. */
  lemma RecordReadsBack(log: seq<Write>, i: nat)
    requires i < |log| && log[i].PutRecord?
    requires Survives(log, i)
    ensures RecordAt(log, log[i].at) == Some(log[i].meta)
  {
    var pos := log[i].at;
    assert log[i].Touches(pos, RECORD_SIZE);
  }

  /** A header written last reads back intact. */
  lemma HeaderWrittenLast(log: seq<Write>, h: Header)
    requires |log| > 0 && log[|log| - 1] == PutHeader(h)
    ensures HeaderAt(log) == Some(h)
  {
    assert log[|log| - 1].Touches(0, HEADER_SIZE);
  }
}

=== FILE: layout.dfy ===
/**
  The on-disk vocabulary of the `.ad` container: the constants of the format,
  the two fixed-size structures (`Header` and `Metadata`) and the write
  operations the archiver issues against the archive file.

  Binary layout is not modelled: a record occupies `RECORD_SIZE` bytes, an
  abstract constant, because the padding of `Metadata` and the widths of
  `uid_t`, `gid_t` and `mode_t` depend on the platform. All that is assumed
  of it is what any platform gives: two 256-byte arrays, a byte and five
  scalar fields occupy more than nothing and less than 64 KiB.
*/
module Layout {

  datatype Option<+T> = None | Some(value: T)

  type byte = x: int | 0 <= x < 256
  type RecordBytes = n: nat | 0 < n < 0x1_0000 witness 1

  /** Magic value stored in the first field of a finished archive. */
  const HEADER_SIGNATURE: nat := 0xADAD_ADAD
  /** Capacity of the `name` and `path` character arrays, terminator included. */
  const MAX_PATH_LEN: nat := 256
  /** `sizeof(Header)`: three `uint32_t` fields, no padding. */
  const HEADER_SIZE: nat := 12
  /** `sizeof(Metadata)`: platform-dependent. */
  const RECORD_SIZE: RecordBytes

  /** Bytes taken by `n` consecutive records, built up one record at a time. */
  function Slots(n: nat): nat
  {
    if n == 0 then 0 else Slots(n - 1) + RECORD_SIZE
  }

  /** `n` records then `k` more take the space of `n + k` records. */
  lemma {:induction false} SlotsAdd(n: nat, k: nat)
    ensures Slots(n + k) == Slots(n) + Slots(k)
    decreases k
  {
    if k > 0 {
      SlotsAdd(n, k - 1);
      assert Slots(n + k) == Slots(n + k - 1) + RECORD_SIZE;
    }
  }

  /** `n` records take `n * sizeof(Metadata)` bytes. */
  lemma {:induction false} SlotsProduct(n: nat)
    ensures Slots(n) == n * RECORD_SIZE
    decreases n
  {
    if n > 0 {
      SlotsProduct(n - 1);
      assert n * RECORD_SIZE == (n - 1) * RECORD_SIZE + RECORD_SIZE;
    }
  }

  /** `d_type` values from `<dirent.h>` (Linux). */
  const DT_DIR: byte := 4
  const DT_REG: byte := 8

  const U32_LIMIT: nat := 0x1_0000_0000

  /** The first value the program's `int` counters cannot hold. */
  const INT_LIMIT: nat := 0x8000_0000

  /** Conversion to `uint32_t`: reduction modulo 2^32. */
  function U32(x: nat): (r: nat)
    ensures r < U32_LIMIT
    ensures x < U32_LIMIT ==> r == x
    ensures exists q: nat :: x == q * U32_LIMIT + r
  {
    var q := x / U32_LIMIT;
    assert x == q * U32_LIMIT + x % U32_LIMIT;
    x % U32_LIMIT
  }

  datatype Header = Header(signature: nat, numEntries: nat, metadataOffset: nat)

  /** The placeholder `Header header = {0}` written before the tree walk. */
  const ZERO_HEADER: Header := Header(0, 0, 0)

  /**
    One entry record. `kind` is the raw `d_type` byte. `size` is `None` when the
    source never assigns the field (directories), so its bytes are whatever the
    stack held.
  */
  datatype Metadata = Metadata(
    name: string,
    kind: byte,
    path: string,
    owner: nat,
    group: nat,
    rights: nat,
    size: Option<nat>,
    contentOffset: nat)

  /**
    One positioned write to the archive file: an `fseek` followed by `fwrite`.
    A header is always written at offset 0.
  */
  datatype Write =
    | PutHeader(header: Header)
    | PutContent(at: nat, bytes: seq<byte>)
    | PutRecord(at: nat, meta: Metadata)
  {
    function Start(): nat {
      match this
      case PutHeader(_) => 0
      case PutContent(at, _) => at
      case PutRecord(at, _) => at
    }

    function Len(): nat {
      match this
      case PutHeader(_) => HEADER_SIZE
      case PutContent(_, bytes) => |bytes|
      case PutRecord(_, _) => RECORD_SIZE
    }

    /**
      True when this write changes some byte of `[start, start + len)`. A write
      of no bytes (an empty file's content: `fseek` with no `fwrite`) changes
      nothing.
    */
    predicate Touches(start: nat, len: nat) {
      0 < Len() && 0 < len && Start() < start + len && start < Start() + Len()
    }
  }

  /** Two writes share at least one byte position. */
  predicate Overlap(a: Write, b: Write) {
    a.Touches(b.Start(), b.Len())
  }

  /** A record write as seen in the metadata table: its slot and its fields. */
  datatype Placed = Placed(at: nat, meta: Metadata)

  /** The record writes of a log, in the order they were issued. */
  function Records(log: seq<Write>): (r: seq<Placed>)
    ensures |r| <= |log|
    ensures forall k :: 0 <= k < |r| ==> PutRecord(r[k].at, r[k].meta) in log
  {
    if log == [] then []
    else
      var rest := Records(log[1..]);
      assert forall w :: w in log[1..] ==> w in log;
      match log[0]
      case PutRecord(at, meta) => [Placed(at, meta)] + rest
      case _ => rest
  }

  lemma {:induction false} RecordsAppend(a: seq<Write>, b: seq<Write>)
    ensures Records(a + b) == Records(a) + Records(b)
  {
    if a == [] {
      assert a + b == b;
    } else {
      assert (a + b)[1..] == a[1..] + b;
      RecordsAppend(a[1..], b);
    }
  }

  /** The content writes of a log, in the order they were issued. */
  function Chunks(log: seq<Write>): (r: seq<Write>)
    ensures |r| <= |log|
    ensures forall k :: 0 <= k < |r| ==> r[k].PutContent? && r[k] in log
  {
    if log == [] then []
    else
      var rest := Chunks(log[1..]);
      assert forall w :: w in log[1..] ==> w in log;
      if log[0].PutContent? then [log[0]] + rest else rest
  }

  lemma {:induction false} ChunksAppend(a: seq<Write>, b: seq<Write>)
    ensures Chunks(a + b) == Chunks(a) + Chunks(b)
  {
    if a == [] {
      assert a + b == b;
    } else {
      assert (a + b)[1..] == a[1..] + b;
      ChunksAppend(a[1..], b);
    }
  }
}

=== FILE: listing.dfy ===
/**
  The reader side: the signature gate and the top-level loop of
  `print_hierarchy`, run on the image an archive's writes leave behind.
*/
module Listing {
  import opened Layout
  import opened Image

  /**
    What the listing produces. `Unreadable`: the first bytes are not a header
    that was written. `Rejected`: the signature does not match and nothing is
    listed. `Listed`: the names printed at depth 0; `complete` is false when
    the listing went on into behaviour this model leaves out.
  */
  datatype Listing = Unreadable | Rejected | Listed(names: seq<string>, complete: bool)

  /**
    `print_hierarchy(archive, 0)`: read the header, refuse it unless its
    signature is `HEADER_SIGNATURE`, then read `num_entries` records from
    `metadata_offset` and print each name.
  */
  function PrintHierarchy(log: seq<Write>): (out: Listing)
    ensures out == Unreadable <==> HeaderAt(log).None?
    ensures out == Rejected <==>
      HeaderAt(log).Some? && HeaderAt(log).value.signature != HEADER_SIGNATURE
    ensures out.Listed? ==> |out.names| <= HeaderAt(log).value.numEntries
    ensures out.Listed? && out.complete ==> |out.names| == HeaderAt(log).value.numEntries
  {
    match HeaderAt(log)
    case None => Unreadable
    case Some(h) =>
      if h.signature != HEADER_SIGNATURE then Rejected
      else ListRecords(log, h.metadataOffset, h.numEntries)
  }

  /**
    The depth-0 loop from `pos`, for `count` records. It stops after a
    directory's name, because the recursive call made there is not modelled,
    and at a slot whose bytes were not written as a record there.
  */
  function ListRecords(log: seq<Write>, pos: nat, count: nat): (out: Listing)
    ensures out.Listed?
    ensures |out.names| <= count
    ensures out.complete ==> |out.names| == count
    decreases count
  {
    if count == 0 then Listed([], true)
    else match RecordAt(log, pos)
      case None => Listed([], false)
      case Some(meta) =>
        if meta.kind == DT_DIR then Listed([meta.name], false)
        else
          var rest := ListRecords(log, pos + RECORD_SIZE, count - 1);
          Listed([meta.name] + rest.names, rest.complete)
  }

  /** What the depth-0 loop prints from a table it reads intact, as a reference. */
  function TableListing(table: seq<Metadata>): (out: Listing)
    ensures out.Listed?
    ensures out.complete <==> forall k :: 0 <= k < |table| ==> table[k].kind != DT_DIR
    ensures out.complete ==> |out.names| == |table| && forall k :: 0 <= k < |table| ==> out.names[k] == table[k].name
  {
    if table == [] then Listed([], true)
    else if table[0].kind == DT_DIR then Listed([table[0].name], false)
    else
      var rest := TableListing(table[1..]);
      assert forall k :: 1 <= k < |table| ==> table[k] == table[1..][k - 1];
      Listed([table[0].name] + rest.names, rest.complete)
  }

  /** Every record of `table` reads back intact from consecutive slots starting at `pos`. */
  predicate IntactFrom(log: seq<Write>, pos: nat, table: seq<Metadata>)
    decreases |table|
  {
    table == [] || (RecordAt(log, pos) == Some(table[0]) && IntactFrom(log, pos + RECORD_SIZE, table[1..]))
  }

  /** A table whose every slot reads back intact is listed as the reference says. */
  lemma {:induction false} ListsIntactTable(log: seq<Write>, pos: nat, table: seq<Metadata>)
    requires IntactFrom(log, pos, table)
    ensures ListRecords(log, pos, |table|) == TableListing(table)
    decreases |table|
  {
    if table != [] {
      ListsIntactTable(log, pos + RECORD_SIZE, table[1..]);
      StepListing(log, pos, table);
    }
  }

  /** One step of the loop agrees with one step of the reference, given the rest agree. */
  lemma StepListing(log: seq<Write>, pos: nat, table: seq<Metadata>)
    requires table != []
    requires RecordAt(log, pos) == Some(table[0])
    requires ListRecords(log, pos + RECORD_SIZE, |table| - 1) == TableListing(table[1..])
    ensures ListRecords(log, pos, |table|) == TableListing(table)
  {
  }

}

=== FILE: paths.dfy ===
/**
  The character-array operations of the archiver: `snprintf` of an entry path
  into a `MAX_PATH_LEN` buffer, `strncpy` of names and paths into the record's
  fixed arrays, and the "archive the parent directory" computation applied to
  an input that is not a directory.
*/
module Paths {
  import opened Layout

  /** The first `min(|s|, n)` characters of `s`. */
  function Truncate(s: string, n: nat): (r: string)
    ensures |r| == (if |s| <= n then |s| else n)
    ensures r <= s
  {
    if |s| <= n then s else s[..n]
  }

  /**
    `snprintf(entry_path, MAX_PATH_LEN, "%s/%s", dir_path, name)`: the joined
    path, cut so that it fits the buffer together with its terminator.
  */
  function EntryPath(dirPath: string, name: string): (r: string)
    ensures |r| < MAX_PATH_LEN
    ensures |r| == if |dirPath + "/" + name| < MAX_PATH_LEN then |dirPath + "/" + name| else MAX_PATH_LEN - 1
    ensures r <= dirPath + "/" + name
    ensures |dirPath + "/" + name| < MAX_PATH_LEN ==> r == dirPath + "/" + name
    ensures |dirPath| < MAX_PATH_LEN - 1 ==> dirPath + "/" <= r
  {
    Truncate(dirPath + "/" + name, MAX_PATH_LEN - 1)
  }

  /** `strncpy(field, src, MAX_PATH_LEN)` into a record's `name` or `path` array. */
  function CopyField(src: string): (r: string)
    ensures |r| <= MAX_PATH_LEN
    ensures |r| == if |src| <= MAX_PATH_LEN then |src| else MAX_PATH_LEN
    ensures r <= src
    ensures |src| <= MAX_PATH_LEN ==> r == src
  {
    Truncate(src, MAX_PATH_LEN)
  }

  /** The last position of `c` in `s`, as `strrchr` finds it. */
  function LastIndexOf(s: string, c: char): (r: Option<nat>)
    ensures r.None? <==> c !in s
    ensures r.Some? ==> r.value < |s| && s[r.value] == c && c !in s[r.value + 1..]
  {
    if s == [] then None
    else if s[|s| - 1] == c then Some(|s| - 1)
    else
      var r := LastIndexOf(s[..|s| - 1], c);
      assert s == s[..|s| - 1] + [s[|s| - 1]];
      r
  }

  /** A path cut at its last '/', or "." when it has none. */
  function CutAtLastSlash(s: string): string {
    match LastIndexOf(s, '/')
    case None => "."
    case Some(i) => s[..i]
  }

  /**
    The directory archived for an input that is not a directory: the input up
    to (not including) its last '/', or "." when the input has no '/'. A slash
    at position 0 yields the empty path.
  */
  function ParentDir(input: string): (r: string)
    ensures '/' !in input ==> r == "."
    ensures '/' in input ==>
      && |r| < |input|
      && r == input[..|r|]
      && input[|r|] == '/'
      && '/' !in input[|r| + 1..]
  {
    CutAtLastSlash(input)
  }

  /** The contents of a fixed `char` array after `strncpy`: no terminator if the source filled it. */
  datatype CharArray = CharArray(chars: string, terminated: bool)

  function Strncpy(src: string, n: nat): (b: CharArray)
    ensures b.terminated <==> |src| < n
    ensures b.terminated ==> b.chars == src
    ensures !b.terminated ==> |b.chars| == n && b.chars <= src
  {
    CharArray(Truncate(src, n), |src| < n)
  }

  /**
    The parent-directory computation exactly as `main` writes it: `strncpy`
    into a `MAX_PATH_LEN` array, then `strrchr` for the last '/'. When the
    input fills the array no terminator is written and `strrchr` reads past
    its end; that undefined behaviour is `None`.
  */
  function ParentDirAsWritten(input: string): (r: Option<string>)
    ensures r.Some? <==> |input| < MAX_PATH_LEN
  {
    var buf := Strncpy(input, MAX_PATH_LEN);
    if !buf.terminated then None
    else Some(CutAtLastSlash(buf.chars))
  }

  /** On every input that fits the array, the code as written computes `ParentDir`. */
  lemma ParentDirAgrees(input: string)
    requires |input| < MAX_PATH_LEN
    ensures ParentDirAsWritten(input) == Some(ParentDir(input))
  {
  }

  /** A 256-character input — a file name 254 characters long inside directory "d" — leaves the array unterminated. */
  lemma ParentDirUnterminated()
    ensures
      var input := "d/" + seq(254, _ => 'f');
      && ParentDirAsWritten(input).None?
      && ParentDir(input) == "d"
  {
    var input := "d/" + seq(254, _ => 'f');
    assert input[1] == '/';
    assert forall k :: 2 <= k < |input| ==> input[k] == 'f';
  }
}

=== FILE: post_order.dfy ===
/**
  The order of the metadata table. `store_directory` writes a directory's
  record only after returning from the walk of its contents, so the table is
  in post-order: no record that follows a directory's record lies inside that
  directory, and every record a directory's walk writes lies inside it.

  Paths are compared as strings, so the statement is made for trees whose
  paths fit their buffers and whose names are proper (see
  `FsTree.WellFormedDir`); truncated paths can collide.
*/
module PostOrder {
  import opened Layout
  import opened Paths
  import opened FsTree
  import opened Store

  /** `path` names something strictly below the directory `dir`. */
  predicate Inside(dir: string, path: string) {
    dir + "/" <= path
  }

  /** `path` is `top` itself or lies below it. */
  predicate Within(top: string, path: string) {
    path == top || Inside(top, path)
  }

  /** No record after a directory's record lies inside that directory. */
  predicate PostOrdered(recs: seq<Placed>) {
    forall j, i :: 0 <= j < i < |recs| && recs[j].meta.kind == DT_DIR ==>
      !Inside(recs[j].meta.path, recs[i].meta.path)
  }

  lemma PrefixTransitive(a: string, b: string, c: string)
    requires a <= b && b <= c
    ensures a <= c
  {
  }

  /** Below something within `top` is below `top`. */
  lemma InsideWithin(top: string, x: string, y: string)
    requires Within(top, x) && Inside(x, y)
    ensures Inside(top, y)
  {
    if x != top {
      assert top + "/" <= x;
      assert x <= x + "/";
      PrefixTransitive(top + "/", x, x + "/");
      PrefixTransitive(top + "/", x + "/", y);
    }
  }

  /** Everything within `dir/name` lies inside `dir`. */
  lemma WithinEntryInside(dir: string, name: string, x: string)
    requires Within(dir + "/" + name, x)
    ensures Inside(dir, x)
  {
    assert dir + "/" <= dir + "/" + name;
    if x != dir + "/" + name {
      assert dir + "/" + name <= dir + "/" + name + "/";
      PrefixTransitive(dir + "/", dir + "/" + name, dir + "/" + name + "/");
      PrefixTransitive(dir + "/", dir + "/" + name + "/", x);
    }
  }

  /** A name without '/' that starts `s` ends no later than the first '/' at `k`. */
  lemma NoSlashBefore(s: string, name: string, k: nat)
    requires '/' !in name && name <= s
    requires k < |s| && s[k] == '/'
    ensures |name| <= k
  {
  }

  /** A path within `dir/a` and inside `dir/b` forces `a == b` when names hold no '/'. */
  lemma SameComponent(dir: string, a: string, b: string, x: string)
    requires '/' !in a && '/' !in b
    requires Within(dir + "/" + a, x) && Inside(dir + "/" + b, x)
    ensures a == b
  {
    var base := |dir| + 1;
    var da := dir + "/" + a;
    var db := dir + "/" + b + "/";
    var y := x[base..];
    assert x[..|db|] == db;
    assert da <= x;
    assert a <= y by {
      forall t | 0 <= t < |a| ensures y[t] == a[t] {
        assert da[base + t] == a[t];
      }
    }
    assert b + "/" <= y by {
      forall t | 0 <= t <= |b| ensures y[t] == (b + "/")[t] {
        assert db[base + t] == (b + "/")[t];
      }
    }
    assert y[|b|] == '/';
    NoSlashBefore(y, a, |b|);
    assert |x| > |da|;
    assert da + "/" <= x;
    assert y[|a|] == '/' by {
      assert (da + "/")[base + |a|] == '/';
    }
    assert b <= y;
    NoSlashBefore(y, b, |a|);
    assert a == y[..|a|] == b;
  }

  lemma PostOrderedAppend(a: seq<Placed>, b: seq<Placed>)
    requires PostOrdered(a) && PostOrdered(b)
    requires forall j, i :: 0 <= j < |a| && 0 <= i < |b| && a[j].meta.kind == DT_DIR ==>
      !Inside(a[j].meta.path, b[i].meta.path)
    ensures PostOrdered(a + b)
  {
    var s := a + b;
    forall j, i | 0 <= j < i < |s| && s[j].meta.kind == DT_DIR
      ensures !Inside(s[j].meta.path, s[i].meta.path)
    {
      if i < |a| {
        assert s[j] == a[j] && s[i] == a[i];
      } else if j >= |a| {
        assert s[j] == b[j - |a|] && s[i] == b[i - |a|];
      } else {
        assert s[j] == a[j] && s[i] == b[i - |a|];
      }
    }
  }

  /** The records one entry accounts for are post-ordered and lie within its path. */
  lemma {:induction false} EntryPostOrder(dir: string, e: Node, m: nat, d: nat)
    requires WellFormedEntry(dir, e)
    ensures var recs := Records(StoreEntry(dir, e, m, d).log);
      && PostOrdered(recs)
      && forall k :: 0 <= k < |recs| ==> Within(dir + "/" + e.name, recs[k].meta.path)
    decreases e
  {
    EntryRecords(dir, e, m, d);
    if Recorded(e) {
      var path := EntryPath(dir, e.name);
      assert path == dir + "/" + e.name;
      var rec := EntryRecord(dir, e, e.stat.value, d);
      assert rec.path == path;
      if e.dtype == DT_DIR {
        var sub := StoreDirectory(path, e.opens, e.children, m, d);
        DirPostOrder(path, e.opens, e.children, m, d);
        var a := Records(sub.log);
        var own := [Placed(sub.metaOff, rec)];
        forall j, i | 0 <= j < |a| && 0 <= i < |own| && a[j].meta.kind == DT_DIR
          ensures !Inside(a[j].meta.path, own[i].meta.path)
        {
          assert Inside(path, a[j].meta.path);
        }
        PostOrderedAppend(a, own);
      }
    }
  }

  /** The records of a directory's walk are post-ordered and lie inside it. */
  lemma {:induction false} DirPostOrder(dir: string, opens: bool, kids: seq<Node>, m: nat, d: nat)
    requires WellFormedDir(dir, kids)
    ensures var recs := Records(StoreDirectory(dir, opens, kids, m, d).log);
      && PostOrdered(recs)
      && forall k :: 0 <= k < |recs| ==> Inside(dir, recs[k].meta.path)
    decreases kids, 2
  {
    if opens {
      EntriesPostOrder(dir, kids, m, d);
    }
  }

  lemma {:induction false} EntriesPostOrder(dir: string, kids: seq<Node>, m: nat, d: nat)
    requires WellFormedDir(dir, kids)
    ensures var recs := Records(StoreEntries(dir, kids, m, d).log);
      && PostOrdered(recs)
      && forall k :: 0 <= k < |recs| ==> Inside(dir, recs[k].meta.path)
    decreases kids, 1
  {
    if kids != [] {
      var e := kids[0];
      var first := StoreEntry(dir, e, m, d);
      var rest := StoreEntries(dir, kids[1..], first.metaOff, first.dataOff);
      EntriesRecords(dir, kids, m, d);
      WellFormedTail(dir, kids);
      EntryPostOrder(dir, e, m, d);
      EntriesPostOrder(dir, kids[1..], first.metaOff, first.dataOff);
      var a := Records(first.log);
      var b := Records(rest.log);
      SiblingsApart(dir, kids, m, d);
      PostOrderedAppend(a, b);
      forall k | 0 <= k < |a|
        ensures Inside(dir, a[k].meta.path)
      {
        WithinEntryInside(dir, e.name, a[k].meta.path);
      }
    }
  }

  lemma WellFormedTail(dir: string, kids: seq<Node>)
    requires kids != [] && WellFormedDir(dir, kids)
    ensures WellFormedDir(dir, kids[1..])
    ensures WellFormedEntry(dir, kids[0])
    ensures forall k :: 0 <= k < |kids[1..]| ==> kids[1..][k].name != kids[0].name
  {
    assert forall k :: 0 <= k < |kids[1..]| ==> kids[1..][k] == kids[k + 1];
  }

  /** Nothing the later siblings record lies inside a directory the first entry recorded. */
  lemma SiblingsApart(dir: string, kids: seq<Node>, m: nat, d: nat)
    requires kids != [] && WellFormedDir(dir, kids)
    ensures
      var first := StoreEntry(dir, kids[0], m, d);
      var a := Records(first.log);
      var b := Records(StoreEntries(dir, kids[1..], first.metaOff, first.dataOff).log);
      forall j, i :: 0 <= j < |a| && 0 <= i < |b| && a[j].meta.kind == DT_DIR ==>
        !Inside(a[j].meta.path, b[i].meta.path)
    decreases kids, 0
  {
    var e := kids[0];
    var first := StoreEntry(dir, e, m, d);
    var a := Records(first.log);
    var b := Records(StoreEntries(dir, kids[1..], first.metaOff, first.dataOff).log);
    if a != [] {
      EntryRecords(dir, e, m, d);
      WellFormedTail(dir, kids);
      EntryPostOrder(dir, e, m, d);
      EntriesAvoid(dir, kids[1..], first.metaOff, first.dataOff, e.name);
      forall j, i | 0 <= j < |a| && 0 <= i < |b| && a[j].meta.kind == DT_DIR
        ensures !Inside(a[j].meta.path, b[i].meta.path)
      {
        if Inside(a[j].meta.path, b[i].meta.path) {
          InsideWithin(dir + "/" + e.name, a[j].meta.path, b[i].meta.path);
          assert false;
        }
      }
    }
  }

  /** No record of a directory's entries lies inside a sibling name none of them has. */
  lemma {:induction false} EntriesAvoid(dir: string, kids: seq<Node>, m: nat, d: nat, name: string)
    requires WellFormedKids(dir, kids)
    requires '/' !in name
    requires forall k :: 0 <= k < |kids| ==> kids[k].name != name
    ensures var recs := Records(StoreEntries(dir, kids, m, d).log);
      forall k :: 0 <= k < |recs| ==> !Inside(dir + "/" + name, recs[k].meta.path)
    decreases kids
  {
    if kids != [] {
      var e := kids[0];
      var first := StoreEntry(dir, e, m, d);
      var rest := StoreEntries(dir, kids[1..], first.metaOff, first.dataOff);
      EntriesRecords(dir, kids, m, d);
      EntryPostOrder(dir, e, m, d);
      EntriesAvoid(dir, kids[1..], first.metaOff, first.dataOff, name);
      var a := Records(first.log);
      if a != [] {
        EntryRecords(dir, e, m, d);
        forall k | 0 <= k < |a|
          ensures !Inside(dir + "/" + name, a[k].meta.path)
        {
          if Inside(dir + "/" + name, a[k].meta.path) {
            SameComponent(dir, e.name, name, a[k].meta.path);
            assert false;
          }
        }
      }
    }
  }
}

=== FILE: separated.dfy ===
/**
  The layout the format evidently intends, next to the code as written.

  As written, both counters start at `sizeof(Header)`, so a file's bytes and
  the first records are written over one another, and the header's
  `metadata_offset` is the counter's final value — the end of the table, not
  its start — so the reader looks for records past the last one.

  Corrected here: a planning pass (`FsTree.DirBytes`) sizes the content
  region first, the metadata table starts right after it, and the header
  points at the start of the table. Every write then survives to the final
  file and the reader lists exactly the records written.
*/
module Separated {
  import opened Layout
  import opened FsTree
  import opened Store
  import opened Accounting
  import opened Image
  import opened Listing
  import opened Create

  /** The header of a separated archive: the table's start and the number of records in it. */
  function SeparatedHeader(tableStart: nat, metaOff: nat): Header
    requires metaOff >= tableStart
  {
    Header(HEADER_SIGNATURE, U32((metaOff - tableStart) / RECORD_SIZE), U32(tableStart))
  }

  function CreateSeparated(
    inputPath: string, archiveOpens: bool, inputStat: Option<StatInfo>,
    opens: bool, listing: seq<Node>): (out: Outcome)
    ensures !archiveOpens <==> out.OpenFailed?
    ensures archiveOpens && inputStat.None? <==> out.StatFailed?
    ensures !out.Undefined?
    ensures out.StatFailed? ==> out.log == [PutHeader(ZERO_HEADER)]
    ensures out.Created? ==>
      && out.dir == ArchivedDir(inputPath, inputStat.value)
      && out.log == [PutHeader(ZERO_HEADER)] + out.walk.log + [PutHeader(out.header)]
  {
    if !archiveOpens then OpenFailed
    else match inputStat
      case None => StatFailed([PutHeader(ZERO_HEADER)])
      case Some(st) =>
        var dir := ArchivedDir(inputPath, st);
        var tableStart := HEADER_SIZE + DirBytes(opens, listing);
        var walk := StoreDirectory(dir, opens, listing, tableStart, HEADER_SIZE);
        var header := SeparatedHeader(tableStart, walk.metaOff);
        Created(dir, walk, header, [PutHeader(ZERO_HEADER)] + walk.log + [PutHeader(header)])
  }

  /** When content ends before the table starts, no write of a walk overlaps a later one. */
  lemma WalkDisjoint(w: Walk, m: nat, d: nat)
    requires Laid(w, m, d) && w.dataOff <= m
    ensures forall i, j :: 0 <= i < j < |w.log| ==> !Overlap(w.log[j], w.log[i])
  {
    forall i, j | 0 <= i < j < |w.log|
      ensures !Overlap(w.log[j], w.log[i])
    {
      assert Bounded(w.log, m, d, w.metaOff, w.dataOff);
      var a := w.log[i];
      var b := w.log[j];
      if a.PutRecord? && b.PutRecord? {
        assert a.at + RECORD_SIZE <= b.at;
      } else if a.PutContent? && b.PutContent? {
        assert a.at + |a.bytes| <= b.at;
      }
    }
  }

  /** Every write of a separated archive, except the placeholder the final header replaces, survives. */
  lemma SeparatedSurvives(
    inputPath: string, archiveOpens: bool, inputStat: Option<StatInfo>,
    opens: bool, listing: seq<Node>)
    requires CreateSeparated(inputPath, archiveOpens, inputStat, opens, listing).Created?
    ensures var log := CreateSeparated(inputPath, archiveOpens, inputStat, opens, listing).log;
      forall i :: 0 < i < |log| ==> Survives(log, i)
  {
    var out := CreateSeparated(inputPath, archiveOpens, inputStat, opens, listing);
    var tableStart := HEADER_SIZE + DirBytes(opens, listing);
    var walk := out.walk;
    assert walk == StoreDirectory(out.dir, opens, listing, tableStart, HEADER_SIZE);
    DirLaid(out.dir, opens, listing, tableStart, HEADER_SIZE);
    DirAccounting(out.dir, opens, listing, tableStart, HEADER_SIZE);
    WalkDisjoint(walk, tableStart, HEADER_SIZE);
    var log := out.log;
    forall i | 0 < i < |log|
      ensures Survives(log, i)
    {
      forall j | i < j < |log|
        ensures !Overlap(log[j], log[i])
      {
        assert log[i] == walk.log[i - 1];
        if j < |log| - 1 {
          assert log[j] == walk.log[j - 1];
        } else {
          assert log[j] == PutHeader(out.header);
          assert log[i].Start() >= HEADER_SIZE;
        }
      }
    }
  }

  /** The fields of a table of record writes. */
  function Fields(recs: seq<Placed>): (table: seq<Metadata>)
    ensures |table| == |recs|
    ensures forall k :: 0 <= k < |recs| ==> table[k] == recs[k].meta
  {
    seq(|recs|, k requires 0 <= k < |recs| => recs[k].meta)
  }

  /** Records in consecutive slots that each read back from their own slot form an intact table. */
  lemma {:induction false} SlottedIntact(log: seq<Write>, recs: seq<Placed>, m: nat)
    requires Slotted(recs, m)
    requires forall k :: 0 <= k < |recs| ==> RecordAt(log, recs[k].at) == Some(recs[k].meta)
    ensures IntactFrom(log, m, Fields(recs))
    decreases |recs|
  {
    if recs != [] {
      var tail := recs[1..];
      assert Fields(recs)[1..] == Fields(tail);
      forall k | 0 <= k < |tail|
        ensures RecordAt(log, tail[k].at) == Some(tail[k].meta)
      {
        assert tail[k] == recs[k + 1];
      }
      SlottedIntact(log, tail, m + RECORD_SIZE);
    }
  }

  /** Records of a walk whose writes all survive in `log`, one place later, read back from their slots. */
  lemma TableReadsBack(log: seq<Write>, walk: Walk)
    requires |log| == |walk.log| + 2
    requires forall i :: 0 <= i < |walk.log| ==> log[i + 1] == walk.log[i]
    requires forall i :: 0 < i < |log| ==> Survives(log, i)
    ensures var recs := Records(walk.log);
      forall k :: 0 <= k < |recs| ==> RecordAt(log, recs[k].at) == Some(recs[k].meta)
  {
    var recs := Records(walk.log);
    forall k | 0 <= k < |recs|
      ensures RecordAt(log, recs[k].at) == Some(recs[k].meta)
    {
      var w := PutRecord(recs[k].at, recs[k].meta);
      assert w in walk.log;
      var i :| 0 <= i < |walk.log| && walk.log[i] == w;
      assert log[i + 1] == w;
      RecordReadsBack(log, i + 1);
    }
  }

  /**
    Reading a separated archive: while the table's offset and the number of
    records fit the header's 32-bit fields, the gate passes, the header
    points at the table, and the listing is the one the records written, in
    order, call for.
  */
  lemma SeparatedListing(
    inputPath: string, archiveOpens: bool, inputStat: Option<StatInfo>,
    opens: bool, listing: seq<Node>)
    requires CreateSeparated(inputPath, archiveOpens, inputStat, opens, listing).Created?
    requires HEADER_SIZE + DirBytes(opens, listing) < U32_LIMIT
    requires |Records(CreateSeparated(inputPath, archiveOpens, inputStat, opens, listing).walk.log)| < U32_LIMIT
    ensures var out := CreateSeparated(inputPath, archiveOpens, inputStat, opens, listing);
      PrintHierarchy(out.log) == TableListing(Fields(Records(out.walk.log)))
  {
    var out := CreateSeparated(inputPath, archiveOpens, inputStat, opens, listing);
    var tableStart := HEADER_SIZE + DirBytes(opens, listing);
    var walk := out.walk;
    assert walk == StoreDirectory(out.dir, opens, listing, tableStart, HEADER_SIZE);
    assert out.header == SeparatedHeader(tableStart, walk.metaOff);
    DirLaid(out.dir, opens, listing, tableStart, HEADER_SIZE);
    var recs := Records(walk.log);
    var log := out.log;
    SeparatedSurvives(inputPath, archiveOpens, inputStat, opens, listing);
    HeaderWrittenLast(log, out.header);
    SeparatedCounts(tableStart, walk.metaOff, |recs|);
    TableReadsBack(log, walk);
    SlottedIntact(log, recs, tableStart);
    ListsIntactTable(log, tableStart, Fields(recs));
  }

  /** The header's fields, once decoded, are the table's start and its number of records. */
  lemma SeparatedCounts(tableStart: nat, metaOff: nat, n: nat)
    requires metaOff == tableStart + Slots(n)
    requires tableStart < U32_LIMIT && n < U32_LIMIT
    ensures SeparatedHeader(tableStart, metaOff).metadataOffset == tableStart
    ensures SeparatedHeader(tableStart, metaOff).numEntries == n
  {
    CountFromCounter(n);
    assert metaOff - tableStart == Slots(n);
  }

  /** A directory "d" holding one regular file "a" of one byte. */
  const ONE_FILE: Node := Node("a", DT_REG, Some(StatInfo(0, 0, 0x81A4, 1)), Some([0x61]), false, [])
  const DIR_STAT: StatInfo := StatInfo(0, 0, 0x41ED, 0)

  /** The walk over the one-file directory, from any pair of counters. */
  lemma OneFileWalk(m: nat, d: nat)
    ensures StoreDirectory("d", true, [ONE_FILE], m, d) ==
      Walk([PutContent(d, [0x61]), PutRecord(m, EntryRecord("d", ONE_FILE, ONE_FILE.stat.value, d))],
           m + RECORD_SIZE, d + 1)
  {
    assert Recorded(ONE_FILE);
    var first := StoreEntry("d", ONE_FILE, m, d);
    assert first == Walk([PutContent(d, [0x61]), PutRecord(m, EntryRecord("d", ONE_FILE, ONE_FILE.stat.value, d))],
      m + RECORD_SIZE, d + 1);
    assert [ONE_FILE][1..] == [];
    assert StoreEntries("d", [ONE_FILE][1..], first.metaOff, first.dataOff) == Walk([], first.metaOff, first.dataOff);
    assert first.log + [] == first.log;
  }

  /** As written: the record of "a" is written over the byte of "a". */
  lemma ContentOverwritten()
    ensures var out := CreateArchive("d", true, Some(DIR_STAT), true, [ONE_FILE]);
      && out.Created?
      && |out.log| == 4
      && out.log[1] == PutContent(HEADER_SIZE, [0x61])
      && out.log[2].PutRecord? && out.log[2].at == HEADER_SIZE
      && !Survives(out.log, 1)
  {
    var out := CreateArchive("d", true, Some(DIR_STAT), true, [ONE_FILE]);
    assert out.dir == "d";
    OneFileWalk(HEADER_SIZE, HEADER_SIZE);
    assert out.log[2].Touches(HEADER_SIZE, 1);
    assert Overlap(out.log[2], out.log[1]);
  }

  /**
    As written: the header points past the one record, so the reader reads no
    record the walk wrote; the model's reader stops there.
  */
  lemma TableMissed()
    ensures var out := CreateArchive("d", true, Some(DIR_STAT), true, [ONE_FILE]);
      && out.Created?
      && out.header.numEntries == 1
      && out.header.metadataOffset == U32(HEADER_SIZE + RECORD_SIZE)
      && RecordAt(out.log, out.header.metadataOffset).None?
      && PrintHierarchy(out.log) == Listed([], false)
  {
    var out := CreateArchive("d", true, Some(DIR_STAT), true, [ONE_FILE]);
    assert out.dir == "d";
    OneFileWalk(HEADER_SIZE, HEADER_SIZE);
    FinalHeaderCounts(HEADER_SIZE + RECORD_SIZE, 1);
    HeaderWrittenLast(out.log, out.header);
    var pos := HEADER_SIZE + RECORD_SIZE;
    assert out.header.metadataOffset == pos;
    assert RecordAt(out.log, pos).None? by {
      assert !out.log[3].Touches(pos, RECORD_SIZE);
      assert !out.log[2].Touches(pos, RECORD_SIZE);
      assert !out.log[1].Touches(pos, RECORD_SIZE);
      assert !out.log[0].Touches(pos, RECORD_SIZE);
    }
  }

  /** Corrected: the same directory reads back as its one file. */
  lemma SeparatedOneFile()
    ensures PrintHierarchy(CreateSeparated("d", true, Some(DIR_STAT), true, [ONE_FILE]).log) == Listed(["a"], true)
  {
    var out := CreateSeparated("d", true, Some(DIR_STAT), true, [ONE_FILE]);
    assert out.dir == "d";
    var tableStart := HEADER_SIZE + 1;
    assert DirBytes(true, [ONE_FILE]) == 1 by {
      assert Recorded(ONE_FILE);
      assert EntryBytes(ONE_FILE) == 1;
      assert [ONE_FILE][1..] == [];
      assert KidsBytes([ONE_FILE]) == EntryBytes(ONE_FILE) + KidsBytes([]);
    }
    OneFileWalk(tableStart, HEADER_SIZE);
    var rec := EntryRecord("d", ONE_FILE, ONE_FILE.stat.value, HEADER_SIZE);
    assert Records(out.walk.log) == [Placed(tableStart, rec)] by {
      assert out.walk.log[1..] == [PutRecord(tableStart, rec)];
      assert out.walk.log[1..][1..] == [];
    }
    assert rec.name == "a";
    SeparatedListing("d", true, Some(DIR_STAT), true, [ONE_FILE]);
    assert Fields(Records(out.walk.log)) == [rec];
    assert TableListing([rec]) == Listed(["a"], true) by {
      assert [rec][1..] == [];
    }
  }
}

=== FILE: store.dfy ===
/**
  `store_directory` as a pure recursive fold.

  The source threads two counters through the walk by pointer:
  `metadata_offset`, the slot of the next record, and `data_offset`, the
  position of the next content byte. Here each call takes both counters and
  returns them advanced, together with the log of writes it issued to the
  archive, in the order it issued them.
*/
module Store {
  import opened Layout
  import opened Paths
  import opened FsTree

  datatype Walk = Walk(log: seq<Write>, metaOff: nat, dataOff: nat)

  /** The record `store_directory` fills in for an entry it has `stat`ed. */
  function EntryRecord(dirPath: string, e: Node, st: StatInfo, dataOff: nat): (r: Metadata)
    ensures |r.name| == if |e.name| <= MAX_PATH_LEN then |e.name| else MAX_PATH_LEN
    ensures r.name <= e.name
    ensures |e.name| <= MAX_PATH_LEN ==> r.name == e.name
    ensures |r.path| == if |dirPath + "/" + e.name| < MAX_PATH_LEN then |dirPath + "/" + e.name| else MAX_PATH_LEN - 1
    ensures r.path <= dirPath + "/" + e.name
    ensures |dirPath| + 1 + |e.name| < MAX_PATH_LEN ==> r.path == dirPath + "/" + e.name
    ensures r.kind == e.dtype && r.owner == st.uid && r.group == st.gid && r.rights == st.mode
    ensures r.size.Some? <==> e.dtype == DT_REG
    ensures r.size.Some? ==> r.size.value == st.size % U32_LIMIT
    ensures r.contentOffset == dataOff
  {
    Metadata(
      CopyField(e.name),
      e.dtype,
      CopyField(EntryPath(dirPath, e.name)),
      st.uid,
      st.gid,
      st.mode,
      if e.dtype == DT_REG then Some(U32(st.size)) else None,
      dataOff)
  }

  /** Records occupy consecutive `RECORD_SIZE` slots starting at `m`. */
  predicate Slotted(recs: seq<Placed>, m: nat)
    decreases |recs|
  {
    recs == [] || (recs[0].at == m && Slotted(recs[1..], m + RECORD_SIZE))
  }

  /** Content chunks are laid end to end from `d`, ending at `d'`. */
  predicate Contiguous(cs: seq<Write>, d: nat, d': nat)
    decreases |cs|
  {
    if cs == [] then d' == d
    else cs[0].PutContent? && cs[0].at == d && Contiguous(cs[1..], d + |cs[0].bytes|, d')
  }

  /** No header writes; records inside `[m, m')`, content inside `[d, d')`. */
  predicate Bounded(log: seq<Write>, m: nat, d: nat, m': nat, d': nat) {
    forall i :: 0 <= i < |log| ==>
      match log[i]
      case PutHeader(_) => false
      case PutRecord(at, _) => m <= at && at + RECORD_SIZE <= m'
      case PutContent(at, bytes) => d <= at && at + |bytes| <= d'
  }

  /** Later records lie after earlier ones, and so does later content. */
  predicate Ascending(log: seq<Write>) {
    && (forall i, j :: 0 <= i < j < |log| && log[i].PutRecord? && log[j].PutRecord? ==>
          log[i].at + RECORD_SIZE <= log[j].at)
    && (forall i, j :: 0 <= i < j < |log| && log[i].PutContent? && log[j].PutContent? ==>
          log[i].at + |log[i].bytes| <= log[j].at)
  }

  /**
    Every content write is followed at once by the record of the regular file
    it belongs to, which points at it; every record is either a directory's
    (size never assigned) or such a file's; names and paths fit their arrays.
  */
  predicate WellShaped(log: seq<Write>) {
    && (forall i :: 0 <= i < |log| ==> ContentPaired(log, i))
    && (forall i :: 0 <= i < |log| ==> RecordPaired(log, i))
  }

  /** A content write at `i` is followed by the regular-file record that points at it. */
  predicate ContentPaired(log: seq<Write>, i: nat)
    requires i < |log|
  {
    log[i].PutContent? ==>
      && i + 1 < |log|
      && log[i + 1].PutRecord?
      && log[i + 1].meta.kind == DT_REG
      && log[i + 1].meta.contentOffset == log[i].at
  }

  /**
    A record at `i` has fields that fit their arrays, and is either a
    directory's (size never assigned) or a regular file's preceded by the
    content write it points at.
  */
  predicate RecordPaired(log: seq<Write>, i: nat)
    requires i < |log|
  {
    log[i].PutRecord? ==>
      && |log[i].meta.name| <= MAX_PATH_LEN
      && |log[i].meta.path| < MAX_PATH_LEN
      && ((log[i].meta.kind == DT_DIR && log[i].meta.size.None?) ||
          (log[i].meta.kind == DT_REG && log[i].meta.size.Some? &&
           0 < i && log[i - 1].PutContent? && log[i - 1].at == log[i].meta.contentOffset))
  }

  /** The bookkeeping a walk started at counters `m`, `d` keeps. */
  predicate Laid(w: Walk, m: nat, d: nat) {
    && Slotted(Records(w.log), m)
    && w.metaOff == m + Slots(|Records(w.log)|)
    && Contiguous(Chunks(w.log), d, w.dataOff)
    && Bounded(w.log, m, d, w.metaOff, w.dataOff)
    && Ascending(w.log)
    && WellShaped(w.log)
  }

  lemma {:induction false} SlottedAppend(a: seq<Placed>, b: seq<Placed>, m: nat)
    requires Slotted(a, m)
    requires Slotted(b, m + Slots(|a|))
    ensures Slotted(a + b, m)
    decreases |a|
  {
    if a != [] {
      assert (a + b)[1..] == a[1..] + b;
      assert Slots(|a|) == Slots(|a[1..]|) + RECORD_SIZE;
      SlottedAppend(a[1..], b, m + RECORD_SIZE);
    } else {
      assert a + b == b;
    }
  }

  lemma {:induction false} ContiguousAppend(a: seq<Write>, b: seq<Write>, d: nat, d1: nat, d2: nat)
    requires Contiguous(a, d, d1)
    requires Contiguous(b, d1, d2)
    ensures Contiguous(a + b, d, d2)
    decreases |a|
  {
    if a != [] {
      assert (a + b)[1..] == a[1..] + b;
      ContiguousAppend(a[1..], b, d + |a[0].bytes|, d1, d2);
    } else {
      assert a + b == b;
    }
  }

  /** Two walks run one after the other compose. */
  lemma LaidAppend(a: Walk, b: Walk, m: nat, d: nat)
    requires Laid(a, m, d)
    requires Laid(b, a.metaOff, a.dataOff)
    ensures Laid(Walk(a.log + b.log, b.metaOff, b.dataOff), m, d)
  {
    var log := a.log + b.log;
    SlotsAppend(a, b, m);
    ChunksAppend(a.log, b.log);
    ContiguousAppend(Chunks(a.log), Chunks(b.log), d, a.dataOff, b.dataOff);
    ContiguousMonotone(Chunks(a.log), d, a.dataOff);
    ContiguousMonotone(Chunks(b.log), a.dataOff, b.dataOff);
    assert a.metaOff <= b.metaOff;
    BoundedAppend(a.log, b.log, m, d, a.metaOff, a.dataOff, b.metaOff, b.dataOff);
    AscendingAppend(a.log, b.log, m, d, a.metaOff, a.dataOff, b.metaOff, b.dataOff);
    WellShapedAppend(a.log, b.log);
  }

  /** The record slots of two walks run one after the other compose. */
  lemma SlotsAppend(a: Walk, b: Walk, m: nat)
    requires Slotted(Records(a.log), m) && a.metaOff == m + Slots(|Records(a.log)|)
    requires Slotted(Records(b.log), a.metaOff) && b.metaOff == a.metaOff + Slots(|Records(b.log)|)
    ensures Slotted(Records(a.log + b.log), m)
    ensures b.metaOff == m + Slots(|Records(a.log + b.log)|)
  {
    RecordsAppend(a.log, b.log);
    SlottedAppend(Records(a.log), Records(b.log), m);
    SlotsAdd(|Records(a.log)|, |Records(b.log)|);
  }

  lemma BoundedAppend(a: seq<Write>, b: seq<Write>, m: nat, d: nat, m1: nat, d1: nat, m2: nat, d2: nat)
    requires Bounded(a, m, d, m1, d1) && Bounded(b, m1, d1, m2, d2)
    requires m <= m1 <= m2 && d <= d1 <= d2
    ensures Bounded(a + b, m, d, m2, d2)
  {
    var log := a + b;
    forall i | 0 <= i < |log|
      ensures match log[i]
        case PutHeader(_) => false
        case PutRecord(at, _) => m <= at && at + RECORD_SIZE <= m2
        case PutContent(at, bytes) => d <= at && at + |bytes| <= d2
    {
      if i < |a| { assert log[i] == a[i]; } else { assert log[i] == b[i - |a|]; }
    }
  }

  lemma AscendingAppend(a: seq<Write>, b: seq<Write>, m: nat, d: nat, m1: nat, d1: nat, m2: nat, d2: nat)
    requires Ascending(a) && Ascending(b)
    requires Bounded(a, m, d, m1, d1) && Bounded(b, m1, d1, m2, d2)
    ensures Ascending(a + b)
  {
    var log := a + b;
    forall i, j | 0 <= i < j < |log| && log[i].PutRecord? && log[j].PutRecord?
      ensures log[i].at + RECORD_SIZE <= log[j].at
    {
      if j < |a| {
        assert log[i] == a[i] && log[j] == a[j];
      } else if i >= |a| {
        assert log[i] == b[i - |a|] && log[j] == b[j - |a|];
      } else {
        assert log[i] == a[i] && log[j] == b[j - |a|];
      }
    }
    forall i, j | 0 <= i < j < |log| && log[i].PutContent? && log[j].PutContent?
      ensures log[i].at + |log[i].bytes| <= log[j].at
    {
      if j < |a| {
        assert log[i] == a[i] && log[j] == a[j];
      } else if i >= |a| {
        assert log[i] == b[i - |a|] && log[j] == b[j - |a|];
      } else {
        assert log[i] == a[i] && log[j] == b[j - |a|];
      }
    }
  }

  lemma WellShapedAppend(a: seq<Write>, b: seq<Write>)
    requires WellShaped(a) && WellShaped(b)
    ensures WellShaped(a + b)
  {
    var log := a + b;
    forall i | 0 <= i < |log|
      ensures ContentPaired(log, i) && RecordPaired(log, i)
    {
      if i < |a| {
        assert ContentPaired(a, i) && RecordPaired(a, i);
        assert log[i] == a[i];
        if i + 1 < |a| { assert log[i + 1] == a[i + 1]; }
        if 0 < i { assert log[i - 1] == a[i - 1]; }
      } else {
        var k := i - |a|;
        assert ContentPaired(b, k) && RecordPaired(b, k);
        assert log[i] == b[k];
        if k + 1 < |b| { assert log[i + 1] == b[k + 1]; }
        if 0 < k { assert log[i - 1] == b[k - 1]; }
      }
    }
  }

  /** A directory's own step: its record, in the next slot, after its subtree. */
  lemma LaidDirRecord(m: nat, d: nat, rec: Metadata)
    requires rec.kind == DT_DIR && rec.size.None?
    requires |rec.name| <= MAX_PATH_LEN && |rec.path| < MAX_PATH_LEN
    ensures Laid(Walk([PutRecord(m, rec)], m + RECORD_SIZE, d), m, d)
  {
    var log := [PutRecord(m, rec)];
    assert Records(log) == [Placed(m, rec)];
    assert Chunks(log) == [];
  }

  /** A regular file's step: its bytes at `d`, then its record in the next slot. */
  lemma LaidFileRecord(m: nat, d: nat, bytes: seq<byte>, rec: Metadata)
    requires rec.kind == DT_REG && rec.size.Some? && rec.contentOffset == d
    requires |rec.name| <= MAX_PATH_LEN && |rec.path| < MAX_PATH_LEN
    ensures Laid(Walk([PutContent(d, bytes), PutRecord(m, rec)], m + RECORD_SIZE, d + |bytes|), m, d)
  {
    var log := [PutContent(d, bytes), PutRecord(m, rec)];
    assert Records(log) == [Placed(m, rec)] by {
      assert log[1..] == [PutRecord(m, rec)];
    }
    assert Chunks(log) == [PutContent(d, bytes)] by {
      assert log[1..] == [PutRecord(m, rec)];
    }
  }

  lemma {:induction false} ContiguousMonotone(cs: seq<Write>, d: nat, d': nat)
    requires Contiguous(cs, d, d')
    ensures d <= d'
    decreases |cs|
  {
    if cs != [] {
      ContiguousMonotone(cs[1..], d + |cs[0].bytes|, d');
    }
  }

  /** The walk of a directory: nothing when `opendir` fails, else its entries in `readdir` order. */
  function StoreDirectory(dirPath: string, opens: bool, kids: seq<Node>, m: nat, d: nat): (r: Walk)
    ensures r.metaOff >= m && r.dataOff >= d
    ensures !opens ==> r == Walk([], m, d)
    ensures opens ==> r == StoreEntries(dirPath, kids, m, d)
    decreases kids, 1
  {
    if !opens then Walk([], m, d) else StoreEntries(dirPath, kids, m, d)
  }

  function StoreEntries(dirPath: string, kids: seq<Node>, m: nat, d: nat): (r: Walk)
    ensures r.metaOff >= m && r.dataOff >= d
    decreases kids, 0
  {
    if kids == [] then Walk([], m, d)
    else
      var first := StoreEntry(dirPath, kids[0], m, d);
      var rest := StoreEntries(dirPath, kids[1..], first.metaOff, first.dataOff);
      Walk(first.log + rest.log, rest.metaOff, rest.dataOff)
  }

  /**
    One iteration of the `readdir` loop. Skipped — no write, counters
    unchanged — are ".", "..", entries `stat` fails on, entries that are
    neither `DT_DIR` nor `DT_REG`, and regular files `fopen` fails on. A
    directory is walked first and its record written after its subtree; a
    regular file's bytes are copied at `data_offset`, then its record.
  */
  function StoreEntry(dirPath: string, e: Node, m: nat, d: nat): (r: Walk)
    ensures r.metaOff >= m && r.dataOff >= d
    ensures !Recorded(e) ==> r == Walk([], m, d)
    ensures Recorded(e) ==> r.metaOff >= m + RECORD_SIZE
    ensures Recorded(e) ==>
      && |r.log| > 0
      && r.log[|r.log| - 1] == PutRecord(r.metaOff - RECORD_SIZE, EntryRecord(dirPath, e, e.stat.value, d))
    ensures Recorded(e) && e.dtype == DT_REG ==>
      && r.metaOff == m + RECORD_SIZE
      && r.dataOff == d + |e.content.value|
      && r.log[0] == PutContent(d, e.content.value)
    ensures Recorded(e) && e.dtype == DT_DIR ==>
      r.dataOff == StoreDirectory(EntryPath(dirPath, e.name), e.opens, e.children, m, d).dataOff
    decreases e
  {
    if IsDotName(e.name) then Walk([], m, d)
    else match e.stat
      case None => Walk([], m, d)
      case Some(st) =>
        var path := EntryPath(dirPath, e.name);
        var rec := EntryRecord(dirPath, e, st, d);
        if e.dtype == DT_DIR then
          var sub := StoreDirectory(path, e.opens, e.children, m, d);
          Walk(sub.log + [PutRecord(sub.metaOff, rec)], sub.metaOff + RECORD_SIZE, sub.dataOff)
        else if e.dtype == DT_REG then
          match e.content
          case None => Walk([], m, d)
          case Some(bytes) =>
            Walk([PutContent(d, bytes), PutRecord(m, rec)], m + RECORD_SIZE, d + |bytes|)
        else Walk([], m, d)
  }

  /** Every walk keeps the bookkeeping of `Laid` from the counters it starts at. */
  lemma {:induction false} EntryLaid(dirPath: string, e: Node, m: nat, d: nat)
    ensures Laid(StoreEntry(dirPath, e, m, d), m, d)
    decreases e
  {
    if Recorded(e) {
      var rec := EntryRecord(dirPath, e, e.stat.value, d);
      assert |rec.name| <= MAX_PATH_LEN && |rec.path| < MAX_PATH_LEN;
      if e.dtype == DT_DIR {
        var path := EntryPath(dirPath, e.name);
        var sub := StoreDirectory(path, e.opens, e.children, m, d);
        var own := Walk([PutRecord(sub.metaOff, rec)], sub.metaOff + RECORD_SIZE, sub.dataOff);
        DirLaid(path, e.opens, e.children, m, d);
        LaidDirRecord(sub.metaOff, sub.dataOff, rec);
        LaidAppend(sub, own, m, d);
        assert StoreEntry(dirPath, e, m, d) == Walk(sub.log + own.log, own.metaOff, own.dataOff);
      } else {
        LaidFileRecord(m, d, e.content.value, rec);
        assert StoreEntry(dirPath, e, m, d) ==
          Walk([PutContent(d, e.content.value), PutRecord(m, rec)], m + RECORD_SIZE, d + |e.content.value|);
      }
    }
  }

  lemma {:induction false} DirLaid(dirPath: string, opens: bool, kids: seq<Node>, m: nat, d: nat)
    ensures Laid(StoreDirectory(dirPath, opens, kids, m, d), m, d)
    decreases kids, 1
  {
    if opens {
      EntriesLaid(dirPath, kids, m, d);
    }
  }

  lemma {:induction false} EntriesLaid(dirPath: string, kids: seq<Node>, m: nat, d: nat)
    ensures Laid(StoreEntries(dirPath, kids, m, d), m, d)
    decreases kids, 0
  {
    if kids != [] {
      var first := StoreEntry(dirPath, kids[0], m, d);
      var rest := StoreEntries(dirPath, kids[1..], first.metaOff, first.dataOff);
      EntryLaid(dirPath, kids[0], m, d);
      EntriesLaid(dirPath, kids[1..], first.metaOff, first.dataOff);
      LaidAppend(first, rest, m, d);
    }
  }

  /** The records an entry accounts for: none, its own alone, or its subtree's followed by its own. */
  lemma EntryRecords(dirPath: string, e: Node, m: nat, d: nat)
    ensures !Recorded(e) ==> Records(StoreEntry(dirPath, e, m, d).log) == []
    ensures Recorded(e) && e.dtype == DT_REG ==>
      Records(StoreEntry(dirPath, e, m, d).log) == [Placed(m, EntryRecord(dirPath, e, e.stat.value, d))]
    ensures Recorded(e) && e.dtype == DT_DIR ==>
      var sub := StoreDirectory(EntryPath(dirPath, e.name), e.opens, e.children, m, d);
      Records(StoreEntry(dirPath, e, m, d).log) ==
        Records(sub.log) + [Placed(sub.metaOff, EntryRecord(dirPath, e, e.stat.value, d))]
  {
    var r := StoreEntry(dirPath, e, m, d);
    if Recorded(e) {
      var rec := EntryRecord(dirPath, e, e.stat.value, d);
      if e.dtype == DT_DIR {
        var sub := StoreDirectory(EntryPath(dirPath, e.name), e.opens, e.children, m, d);
        assert r.log == sub.log + [PutRecord(sub.metaOff, rec)];
        RecordsAppend(sub.log, [PutRecord(sub.metaOff, rec)]);
        assert Records([PutRecord(sub.metaOff, rec)]) == [Placed(sub.metaOff, rec)];
      } else {
        assert r.log == [PutContent(d, e.content.value), PutRecord(m, rec)];
        assert r.log[1..] == [PutRecord(m, rec)];
      }
    }
  }

  /** The records of a directory's entries: the first entry's, then the rest's. */
  lemma EntriesRecords(dirPath: string, kids: seq<Node>, m: nat, d: nat)
    requires kids != []
    ensures
      var first := StoreEntry(dirPath, kids[0], m, d);
      var rest := StoreEntries(dirPath, kids[1..], first.metaOff, first.dataOff);
      && StoreEntries(dirPath, kids, m, d) == Walk(first.log + rest.log, rest.metaOff, rest.dataOff)
      && Records(StoreEntries(dirPath, kids, m, d).log) == Records(first.log) + Records(rest.log)
  {
    var first := StoreEntry(dirPath, kids[0], m, d);
    var rest := StoreEntries(dirPath, kids[1..], first.metaOff, first.dataOff);
    RecordsAppend(first.log, rest.log);
  }
}

=== FILE: tree.dfy ===
/**
  The filesystem as the archiver sees it, abstracted from `opendir`,
  `readdir`, `stat` and `fopen`/`fread`.

  A directory is the list of entries `readdir` returns, in that order
  ("." and ".." included). Each entry carries what the system calls made
  on its path report: the `d_type` byte, the result of `stat` (or its
  failure), the bytes `fread` delivers until end of file (or the failure of
  `fopen`), and, for a directory, whether `opendir` succeeds and what it lists.
*/
module FsTree {
  import opened Layout

  datatype StatInfo = StatInfo(uid: nat, gid: nat, mode: nat, size: nat)

  datatype Node = Node(
    name: string,
    dtype: byte,
    stat: Option<StatInfo>,
    content: Option<seq<byte>>,
    opens: bool,
    children: seq<Node>)

  /** `S_ISDIR(st_mode)`: the file-type bits `S_IFMT` (0170000) equal `S_IFDIR` (0040000). */
  predicate IsDirMode(mode: nat) {
    (mode / 0x1000) % 0x10 == 4
  }

  predicate IsDotName(name: string) {
    name == "." || name == ".."
  }

  /**
    An entry the archiver writes a record for: not "." or "..", `stat`
    succeeds, and it is a directory or a regular file that opens.
  */
  predicate Recorded(e: Node) {
    && !IsDotName(e.name)
    && e.stat.Some?
    && (e.dtype == DT_DIR || (e.dtype == DT_REG && e.content.Some?))
  }

  /** Number of records an entry accounts for: itself and everything below it. */
  function EntryCount(e: Node): nat
    decreases e
  {
    if !Recorded(e) then 0
    else if e.dtype == DT_DIR then 1 + DirCount(e.opens, e.children)
    else 1
  }

  /** Number of records for the contents of a directory (none if it does not open). */
  function DirCount(opens: bool, kids: seq<Node>): nat
    decreases kids, 1
  {
    if opens then KidsCount(kids) else 0
  }

  function KidsCount(kids: seq<Node>): nat
    decreases kids, 0
  {
    if kids == [] then 0 else EntryCount(kids[0]) + KidsCount(kids[1..])
  }

  /** Content bytes an entry contributes: a recorded file's bytes, a directory's subtree total. */
  function EntryBytes(e: Node): nat
    decreases e
  {
    if !Recorded(e) then 0
    else if e.dtype == DT_DIR then DirBytes(e.opens, e.children)
    else |e.content.value|
  }

  function DirBytes(opens: bool, kids: seq<Node>): nat
    decreases kids, 1
  {
    if opens then KidsBytes(kids) else 0
  }

  function KidsBytes(kids: seq<Node>): nat
    decreases kids, 0
  {
    if kids == [] then 0 else EntryBytes(kids[0]) + KidsBytes(kids[1..])
  }

  /**
    A tree in which every path the archiver forms fits its buffer without
    truncation, names are non-empty and free of '/', and the names within one
    directory are distinct — as on any real filesystem with short paths.
  */
  predicate WellFormedDir(path: string, kids: seq<Node>)
    decreases kids, 1
  {
    && (forall i, j :: 0 <= i < j < |kids| ==> kids[i].name != kids[j].name)
    && WellFormedKids(path, kids)
  }

  predicate WellFormedKids(path: string, kids: seq<Node>)
    decreases kids, 0
  {
    kids == [] || (WellFormedEntry(path, kids[0]) && WellFormedKids(path, kids[1..]))
  }

  predicate WellFormedEntry(path: string, e: Node)
    decreases e
  {
    IsDotName(e.name) ||
    (&& e.name != ""
     && '/' !in e.name
     && |path| + 1 + |e.name| < MAX_PATH_LEN
     && WellFormedDir(path + "/" + e.name, e.children))
  }
}
